=== FILE: README.md ===
# angular-github-sso core, modelled in Dafny

A browser client links a GitHub account through OAuth, keeps the resulting
JWT in `localStorage`, and shows per-organisation activity statistics. This
project models its three logic-bearing files:

- **the GitHub service** (`github_service.dfy`, with `storage.dfy` and the
  string helpers in `text.dfy`): the credential store under the key
  `jwtToken`, the `Bearer` header, the OAuth authorize URL, the request
  each endpoint wrapper builds (including the three paginated statistics
  URLs), and the `handleError` message format;
- **the OAuth component** (`oauth.dfy`): a state machine over
  `{isConnected, connectedUser, errorMessage}` plus the credential store,
  driven by query-parameter emissions, clicks, and status / revoke replies;
- **the repositories component** (`repositories.dfy`): the organisation and
  statistics grids, the selection that turns rows into a login list and
  one `/orgs-stats` request, the two loading flags, the error notification,
  and the Link / Repo Name column value getters.

Every handler is a pure function from a state and an event to a new state
and a list of effects. Effects are router navigation, the browser redirect,
an outgoing request, and a snackbar notification. Network replies are
events that the caller feeds in, in any order. `Run` folds a trace of
events, and the trace lemmas quantify over every trace.

Behaviour of the code worth knowing:

- The code has no stale-response guard. A statistics reply is applied
  whenever it arrives, whichever selection it answers. The model does the
  same: `Repositories.StatsFollowLastEvent` proves the rows are those of the
  last reply, and `Repositories.LateReplyOverwrites` shows an abandoned
  selection's late reply winning.
- A selection change sends `POST /orgs-stats` with the selected logins. It
  does not use the paginated `/commit`, `/issue` or `/pull-request`
  builders, which no modelled caller uses. There is no entity-kind, page or
  search state, and no debounce or deduplication.
- A status reply with `connected = false` changes nothing. It does not
  force a disconnected state.
- The organisations reply handlers first call `gridApiRepos.hideOverlay()`.
  Before the grid's ready event that handle is unset, so the call throws and
  the rest of the handler never runs. The model treats such a reply as
  changing nothing. `Repositories.EarlyOrgsReplyLost` shows the consequence:
  the list stays empty and the spinner stays on.
- Requests read `localStorage` when they are built, not when the component
  starts. A write by another part of the page (the OAuth component storing or
  removing the token) is a `StorageWritten` event of the repositories
  component; `Repositories.RequestReadsCurrentStorage` shows a request sent
  after the token was removed carrying `Bearer null`.
- JavaScript truthiness is modelled: `if (token)` rejects both a missing and
  an empty token, and `showError` falls back on an empty message too.

## Model

| member | source | states |
|---|---|---|
| Storage.GetItem | src/app/services/github.service.ts:21-23 | a read gives the stored value, or null exactly when the key is absent |
| Storage.GetToken | src/app/services/github.service.ts:21-23 | the credential is the value under "jwtToken", or null exactly when that key is absent |
| Storage.StoreToken | src/app/services/github.service.ts:118-120 | after storing, the token reads back verbatim and every other storage key is unchanged |
| Storage.RemoveToken | src/app/services/github.service.ts:122-124 | after removal the token reads back as null and every other key is unchanged |
| Storage.StoreTokenReplaces | src/app/services/github.service.ts:118-120 | with a single key, a later store replaces an earlier one wholesale |
| Storage.RemoveAfterStore | src/app/services/github.service.ts:118-124 | removing after a store leaves the storage as removing alone would |
| Storage.StoreTokenIdempotent | src/app/services/github.service.ts:118-120 | storing the token already held changes nothing |
| GitHubService.AuthorizationHeader | src/app/services/github.service.ts:26-30 | the header is "Bearer " followed by the stored token, or "Bearer null" when none is stored |
| GitHubService.AuthorizationHeaderCarriesToken | src/app/services/github.service.ts:26-30 | the stored token is forwarded verbatim after the 7-character prefix |
| GitHubService.AuthorizationHeaderInjective | src/app/services/github.service.ts:26-30 | two stores with tokens send the same header only if they hold the same token |
| GitHubService.AbsentTokenLooksLikeNull | src/app/services/github.service.ts:21-30 | an empty store sends the same header as a store holding the text "null" |
| GitHubService.ConnectUrl | src/app/services/github.service.ts:34-36 | the URL is the GitHub authorize prefix, the client id, then "&scope=repo,user"; the id sits exactly between them |
| GitHubService.ConnectUrlInjective | src/app/services/github.service.ts:34-36 | the client id is recoverable from the connect URL |
| GitHubService.StatusRequest | src/app/services/github.service.ts:39-44 | a GET of apiUrl + "/status" with the bearer header and no body |
| GitHubService.OrganizationsRequest | src/app/services/github.service.ts:47-51 | a GET of apiUrl + "/organizations" with the bearer header |
| GitHubService.OrganizationsStatsRequest | src/app/services/github.service.ts:53-57 | a POST to apiUrl + "/orgs-stats" whose body carries exactly the given org ids |
| GitHubService.DisconnectRequest | src/app/services/github.service.ts:92-97 | a DELETE of apiUrl + "/disconnect" with the bearer header |
| GitHubService.StatsRequest | src/app/services/github.service.ts:59-75 | a GET with the bearer header whose URL starts with apiUrl, the kind's path and "?" |
| GitHubService.OrgCommitStats | src/app/services/github.service.ts:59-63 | a bodiless bearer GET whose URL reads back as the commit endpoint, followed by the four query fields joined by '&' |
| GitHubService.OrgIssuesStats | src/app/services/github.service.ts:65-69 | a bodiless bearer GET whose URL reads back as the issue endpoint, followed by the four query fields joined by '&' |
| GitHubService.OrgPullRequestStats | src/app/services/github.service.ts:71-75 | a bodiless bearer GET whose URL reads back as the pull-request endpoint, followed by the four query fields joined by '&' |
| GitHubService.KindOfStatsUrl | src/app/services/github.service.ts:59-75 | each statistics builder hits exactly its own path (/commit, /issue, /pull-request), recoverable from the URL |
| GitHubService.StatsKindsDistinct | src/app/services/github.service.ts:59-75 | builders for different kinds never produce the same URL, whatever the other arguments |
| GitHubService.StatsQueryIsFields | src/app/services/github.service.ts:62 | the query is the orgIds, page, pageSize and search fields in that order, joined by '&' |
| GitHubService.StatsQuerySplit | src/app/services/github.service.ts:62 | when no org id holds '&', splitting the query on '&' gives the orgIds, page and pageSize fields, then the pieces of the unencoded search field |
| GitHubService.StatsQueryExactFields | src/app/services/github.service.ts:62 | with no '&' in the ids or the search text, the query has exactly those four fields in order |
| GitHubService.StatsDefaults | src/app/services/github.service.ts:59 | omitted page and page size are sent as page=1 and pageSize=10 |
| GitHubService.StatsOrgIdsRecoverable | src/app/services/github.service.ts:62 | a non-empty id list is sent comma-joined and splits back to the same list when no id holds a comma |
| GitHubService.StatsEmptyOrgIds | src/app/services/github.service.ts:62 | an empty id list sends "orgIds=", the same field as a list holding one empty id, and reads back as that one-element list |
| GitHubService.HandleError | src/app/services/github.service.ts:106-116 | the message always starts with "Error" and is never the initial "An unknown error occurred!" text |
| GitHubService.ParseRejectsLeadingZero | src/app/services/github.service.ts:113 | the status is read back only in the canonical decimal that the template literal writes; a digit run with a leading zero, such as "007", is refused |
| GitHubService.HandleErrorRoundTrip | src/app/services/github.service.ts:106-116 | a client-side error reads back as "Error: " + its message; a server error reads back as its status code and message |
| Text.ParseNatToString | src/app/services/github.service.ts:113 | the decimal status code in the message reads back as the same number |
| Text.SplitJoin | src/app/services/github.service.ts:62 | a non-empty comma-joined id list splits back into the same list when no element holds the separator |
| Text.JoinSplit | src/app/services/github.service.ts:62 | joining the pieces of a split restores the original text |
| OAuth.OnQueryParams | src/app/oauth/oauth.component.ts:37-43 | a truthy token query parameter is stored verbatim and followed by navigation to "/"; otherwise nothing happens |
| OAuth.Init | src/app/oauth/oauth.component.ts:34-63 | starts disconnected with no user; capturing a token writes only "jwtToken"; the only effects are the navigation after a capture and a status check, sent exactly when a truthy token is stored, whether captured now or earlier |
| OAuth.InitSendsCapturedToken | src/app/oauth/oauth.component.ts:37-50 | a captured callback token is navigated away from and then presented as the status check's bearer credential |
| OAuth.OnStatusReply | src/app/oauth/oauth.component.ts:51-56 | a reply with connected set connects and holds that user; any other reply changes nothing |
| OAuth.OnStatusError | src/app/oauth/oauth.component.ts:57-59 | a status error sets only the error message, to the handled text |
| OAuth.Connect | src/app/oauth/oauth.component.ts:66-68 | connect redirects the browser to the authorize URL and changes no state |
| OAuth.Disconnect | src/app/oauth/oauth.component.ts:71-73 | a revoke request is sent only while a user is held; otherwise no request and no state change |
| OAuth.OnDisconnectSuccess | src/app/oauth/oauth.component.ts:74-80 | a successful revoke disconnects, clears the user, removes the token and navigates to "/" |
| OAuth.OnDisconnectError | src/app/oauth/oauth.component.ts:81-83 | a failed revoke sets the error message and leaves the token, isConnected and connectedUser unchanged |
| OAuth.HandlePreservesConsistent | src/app/oauth/oauth.component.ts:51-83 | every handler keeps "connected exactly when a user is held, and that user reported connected" |
| OAuth.RunPreservesConsistent | src/app/oauth/oauth.component.ts:34-86 | that consistency holds along every event trace |
| OAuth.OnlyDisconnectSuccessClearsToken | src/app/oauth/oauth.component.ts:71-86 | the only event that takes a stored token away is a successful revoke |
| OAuth.OnlyDisconnectSuccessDisconnects | src/app/oauth/oauth.component.ts:71-86 | the only event that ends a connected session is a successful revoke |
| OAuth.SessionSurvivesFailedDisconnects | src/app/oauth/oauth.component.ts:71-86 | along any trace without a successful revoke, a stored token stays stored and a connected session stays connected |
| OAuth.RevokeOnlyWithUser | src/app/oauth/oauth.component.ts:71-73 | a DELETE request leaves only from a disconnect click while a user is held |
| OAuth.HandleSendsNoStatusCheck | src/app/oauth/oauth.component.ts:37-86 | no handler sends a status check; only initialisation does |
| OAuth.InitStatusChecks | src/app/oauth/oauth.component.ts:46-50 | initialisation sends one status check when the stored token is truthy after capture, and none otherwise |
| OAuth.DisconnectedWithoutOutcomes | src/app/oauth/oauth.component.ts:51-83 | with no status reply to act on, a disconnected session with no user stays so along any trace |
| OAuth.NoTokenNeverConnects | src/app/oauth/oauth.component.ts:34-83 | with no truthy token captured or stored, no status check is sent, and along any trace whose status outcomes answer sent checks the page never shows a connected user |
| Repositories.Init | src/app/repositories/repositories.component.ts:23-54 | starts with empty grids and both spinners off, and sends the organisations request with the storage as it is then |
| Repositories.ServerErrorField | src/app/repositories/repositories.component.ts:63 | the shown error is the server body's error field; a browser-side error has none |
| Repositories.SnackbarText | src/app/repositories/repositories.component.ts:68-70 | the notification shows the error text when truthy and "An error has occurred!" when it is absent or empty; never empty |
| Repositories.OnReposGridReady | src/app/repositories/repositories.component.ts:75-81 | the organisations grid becomes ready and its spinner turns on |
| Repositories.OnStatsGridReady | src/app/repositories/repositories.component.ts:71-74 | the statistics spinner turns on |
| Repositories.OnOrgsLoaded | src/app/repositories/repositories.component.ts:55-59 | once the grid is ready, the reply becomes the organisation list and the spinner turns off; before that nothing changes |
| Repositories.OnOrgsFailed | src/app/repositories/repositories.component.ts:60-64 | once the grid is ready, the spinner turns off, the list is kept and one notification is shown |
| Repositories.Logins | src/app/repositories/repositories.component.ts:94-97 | the login list has one entry per selected row, in selection order |
| Repositories.OnSelectionChanged | src/app/repositories/repositories.component.ts:92-119 | selectedRepo becomes the rows' logins; a non-empty selection turns the spinner on and sends one stats request for them; an empty one turns it off, clears the rows and sends nothing |
| Repositories.OnStatsLoaded | src/app/repositories/repositories.component.ts:105-108 | a stats reply turns the spinner off and becomes the grid's rows |
| Repositories.OnStatsFailed | src/app/repositories/repositories.component.ts:109-112 | a stats error turns the spinner off, keeps the last rows and shows one notification |
| Repositories.SelectionSendsAtMostOne | src/app/repositories/repositories.component.ts:101-118 | a selection event sends one request carrying the logins when non-empty, and none when empty |
| Repositories.StatsFailureKeepsData | src/app/repositories/repositories.component.ts:109-112 | a stats error leaves rows, selection and organisations untouched and shows a non-empty message |
| Repositories.HandleStatsFields | src/app/repositories/repositories.component.ts:101-118 | what one event does to the statistics rows and spinner |
| Repositories.StatsFollowLastEvent | src/app/repositories/repositories.component.ts:101-118 | after any trace, the rows are the last reply's (or empty after the last empty selection) and the spinner follows the last relevant event; no stale-reply guard |
| Repositories.LateReplyOverwrites | src/app/repositories/repositories.component.ts:103-113 | a reply for an abandoned selection that arrives last overwrites the rows of the current one |
| Repositories.HandlePreservesOrgsWellFormed | src/app/repositories/repositories.component.ts:53-81 | the organisations spinner is on only once the grid is ready, and no organisations are shown before that |
| Repositories.RunPreservesOrgsWellFormed | src/app/repositories/repositories.component.ts:53-81 | that holds along every event trace |
| Repositories.EarlyOrgsReplyLost | src/app/repositories/repositories.component.ts:53-81 | an organisations reply before the grid is ready is lost and the spinner then stays on |
| Repositories.OrgsReplyAfterGridReady | src/app/repositories/repositories.component.ts:53-81 | after the grid is ready, a reply is shown and the spinner goes off |
| Repositories.RequestReadsCurrentStorage | src/app/repositories/repositories.component.ts:101-103 | a selection after the token was removed elsewhere sends its stats request with "Bearer null" |
| Repositories.LinkValue | src/app/repositories/repositories.component.ts:29 | a missing URL stays missing; a URL without "api.github.com" is shown unchanged |
| Repositories.LinkRewritesApiHost | src/app/repositories/repositories.component.ts:29 | only the first "api.github.com" is rewritten to "github.com"; the text around it is kept |
| Repositories.RepoNameValue | src/app/repositories/repositories.component.ts:30 | a missing URL stays missing, a present one gives a name |
| Repositories.RepoNameIsLastSegment | src/app/repositories/repositories.component.ts:30 | the name is the text after the last '/', or the whole URL when it has none |

## Left out

- HTTP transport, RxJS observables and `catchError` plumbing: replies are events fed to the handlers, and requests are values in the effect list.
- `localStorage` persistence across reloads, `window.location` and the Angular router: storage is a map value, navigation and redirect are effects.
- ag-grid (`hideOverlay`, grid handles beyond "is the organisations grid ready"), `MatSnackBar` beyond the text shown, and spinners beyond the two flags: presentation only.
- `getRepos`, `getRepoData`, `getIssueChangelogs`: unused wrappers that only interpolate a URL.
- The sidebar, the org-activity component, app configuration and routes: layout and wiring with no state logic.
- `connectedAt`, `lastSyncedDate`, `syncType`: display-only date and label fields.
- Organisation profile fields other than `id`, `login` and `url`, which the component never reads.
- `environment?.apiUrl` and `environment?.githubClientId` are configuration values. Their `undefined` rendering is not modelled.
- Numbers are integers. JavaScript renderings of fractional, NaN or infinite page values are not modelled.
- The payload of a browser-side `ErrorEvent` is taken to have no string `error` field, so the generic notification text is shown for it.
- Repeated `token` query parameters, which reach the component as an array, are not modelled.
- Debounce, search deduplication, entity-kind switching, pagination state, request cancellation and stale-reply discarding are not modelled because the code has none of them.

=== FILE: github_service.dfy ===
/**
 The GitHub service (src/app/services/github.service.ts): the requests it
 builds, the authorization header it attaches, the OAuth redirect URL and
 the message its error handler produces. Sending a request is left to the
 caller: a builder returns the request as a value.
 */
module GitHubService {
  import opened Text
  import opened Storage

  /** The build-time environment: base URL of the backend and the OAuth client id. */
  datatype Config = Config(apiUrl: string, githubClientId: string)

  datatype Verb = Get | Post | Delete

  /** One HTTP request as the service would hand it to `HttpClient`. */
  datatype Request = Request(
    verb: Verb,
    url: string,
    authorization: string,
    orgIdsBody: Option<seq<Option<string>>>)

  /** What `error.error` holds in an `HttpErrorResponse`. */
  datatype ErrorPayload =
    | ClientEvent(eventMessage: string)      // an `ErrorEvent` raised in the browser
    | ServerPayload(errorField: Option<string>)  // the response body; its `error` field if any

  /** An `HttpErrorResponse`: status code, the response's own message, and its payload. */
  datatype HttpError = HttpError(status: nat, message: string, payload: ErrorPayload)

  /** The three statistics endpoints. */
  datatype StatsKind = Commits | Issues | PullRequests

  const BearerPrefix: string := "Bearer "
  const AuthorizePrefix: string := "https://github.com/login/oauth/authorize?client_id="
  const ScopeSuffix: string := "&scope=repo,user"
  const UnknownErrorText: string := "An unknown error occurred!"
  const DefaultPage: int := 1
  const DefaultPageSize: int := 10

  /** `setHeaders()`: `Bearer ${token}`, where an absent token renders as `null`. */
  function AuthorizationHeader(st: Store): (r: string)
    ensures GetToken(st).Some? ==> r == BearerPrefix + GetToken(st).value
    ensures GetToken(st).None? ==> r == "Bearer null"
  {
    match GetToken(st)
    case Some(t) => BearerPrefix + t
    case None => BearerPrefix + "null"
  }

  /** The stored credential is forwarded verbatim: it is what follows the prefix. */
  lemma AuthorizationHeaderCarriesToken(st: Store, t: string)
    requires GetToken(st) == Some(t)
    ensures |AuthorizationHeader(st)| == |BearerPrefix| + |t|
    ensures AuthorizationHeader(st)[|BearerPrefix|..] == t
  {
  }

  /** Different stored credentials give different headers. */
  lemma AuthorizationHeaderInjective(st1: Store, st2: Store)
    requires GetToken(st1).Some? && GetToken(st2).Some?
    requires AuthorizationHeader(st1) == AuthorizationHeader(st2)
    ensures GetToken(st1) == GetToken(st2)
  {
    AuthorizationHeaderCarriesToken(st1, GetToken(st1).value);
    AuthorizationHeaderCarriesToken(st2, GetToken(st2).value);
  }

  /** An empty store and a store holding the text "null" send the same header. */
  lemma AbsentTokenLooksLikeNull(st1: Store, st2: Store)
    requires GetToken(st1) == None && GetToken(st2) == Some("null")
    ensures AuthorizationHeader(st1) == AuthorizationHeader(st2)
  {
  }

  /** `connect()`: the GitHub authorize URL for the configured client, scopes `repo,user`. */
  function ConnectUrl(cfg: Config): (r: string)
    ensures |r| == |AuthorizePrefix| + |cfg.githubClientId| + |ScopeSuffix|
    ensures r[..|AuthorizePrefix|] == AuthorizePrefix
    ensures r[|AuthorizePrefix|..|r| - |ScopeSuffix|] == cfg.githubClientId
    ensures r[|r| - |ScopeSuffix|..] == ScopeSuffix
  {
    AuthorizePrefix + cfg.githubClientId + ScopeSuffix
  }

  /** The client id is recoverable from the connect URL, so distinct ids give distinct URLs. */
  lemma ConnectUrlInjective(c1: Config, c2: Config)
    requires ConnectUrl(c1) == ConnectUrl(c2)
    ensures c1.githubClientId == c2.githubClientId
  {
  }

  /** `getConnectionStatus()`: GET `/status` with the bearer header. */
  function StatusRequest(cfg: Config, st: Store): (r: Request)
    ensures r.verb == Get && r.url == cfg.apiUrl + "/status"
    ensures r.authorization == AuthorizationHeader(st) && r.orgIdsBody == None
  {
    Request(Get, cfg.apiUrl + "/status", AuthorizationHeader(st), None)
  }

  /** `disconnect()`: DELETE `/disconnect` with the bearer header. */
  function DisconnectRequest(cfg: Config, st: Store): (r: Request)
    ensures r.verb == Delete && r.url == cfg.apiUrl + "/disconnect"
    ensures r.authorization == AuthorizationHeader(st) && r.orgIdsBody == None
  {
    Request(Delete, cfg.apiUrl + "/disconnect", AuthorizationHeader(st), None)
  }

  /** `getOrganizations()`: GET `/organizations` with the bearer header. */
  function OrganizationsRequest(cfg: Config, st: Store): (r: Request)
    ensures r.verb == Get && r.url == cfg.apiUrl + "/organizations"
    ensures r.authorization == AuthorizationHeader(st) && r.orgIdsBody == None
  {
    Request(Get, cfg.apiUrl + "/organizations", AuthorizationHeader(st), None)
  }

  /** `getOrganizationsStats(orgIds)`: POST `/orgs-stats` with body `{orgIds}`. */
  function OrganizationsStatsRequest(cfg: Config, st: Store, orgIds: seq<Option<string>>): (r: Request)
    ensures r.verb == Post && r.url == cfg.apiUrl + "/orgs-stats"
    ensures r.authorization == AuthorizationHeader(st) && r.orgIdsBody == Some(orgIds)
  {
    Request(Post, cfg.apiUrl + "/orgs-stats", AuthorizationHeader(st), Some(orgIds))
  }

  /** The path each statistics builder hits. */
  function KindPath(kind: StatsKind): string
  {
    match kind
    case Commits => "/commit"
    case Issues => "/issue"
    case PullRequests => "/pull-request"
  }

  /** A parameter left `undefined` takes its declared default. */
  function OrDefault(v: Option<int>, default: int): int
  {
    match v
    case Some(x) => x
    case None => default
  }

  /**
   The query string: `orgIds` comma-joined, then `page`, `pageSize`, `search`,
   none of them encoded (the template literal, grouped around its '&'s).
   */
  function StatsQuery(orgIds: seq<string>, page: Option<int>, pageSize: Option<int>, search: string): string
  {
    ("orgIds=" + Join(orgIds, ','))
      + "&" + (("page=" + IntToString(OrDefault(page, DefaultPage)))
      + "&" + (("pageSize=" + IntToString(OrDefault(pageSize, DefaultPageSize)))
      + "&" + ("search=" + search)))
  }

  /** The URL of one statistics request. */
  function StatsUrl(cfg: Config, kind: StatsKind, orgIds: seq<string>, page: Option<int>, pageSize: Option<int>, search: string): string
  {
    cfg.apiUrl + KindPath(kind) + "?" + StatsQuery(orgIds, page, pageSize, search)
  }

  /** The GET request of one statistics builder, with the bearer header. */
  function StatsRequest(cfg: Config, st: Store, kind: StatsKind, orgIds: seq<string>, page: Option<int>, pageSize: Option<int>, search: string): (r: Request)
    ensures r.verb == Get && r.authorization == AuthorizationHeader(st) && r.orgIdsBody == None
    ensures |r.url| > |cfg.apiUrl| + |KindPath(kind)|
    ensures r.url[..|cfg.apiUrl| + |KindPath(kind)| + 1] == cfg.apiUrl + KindPath(kind) + "?"
  {
    Request(Get, StatsUrl(cfg, kind, orgIds, page, pageSize, search), AuthorizationHeader(st), None)
  }

  /** `getOrgCommitStats(...)`: a bearer GET whose URL reads back as the Commits endpoint, with the four query fields. */
  function OrgCommitStats(cfg: Config, st: Store, orgIds: seq<string>, page: Option<int>, pageSize: Option<int>, search: string): (r: Request)
    ensures r.verb == Get && r.authorization == AuthorizationHeader(st) && r.orgIdsBody == None
    ensures KindOfUrl(cfg, r.url) == Some(Commits)
    ensures r.url == cfg.apiUrl + KindPath(Commits) + "?" + Join(StatsFields(orgIds, page, pageSize, search), '&')
  {
    KindOfStatsUrl(cfg, Commits, orgIds, page, pageSize, search);
    StatsQueryIsFields(orgIds, page, pageSize, search);
    StatsRequest(cfg, st, Commits, orgIds, page, pageSize, search)
  }

  /** `getOrgIssuesStats(...)`: a bearer GET whose URL reads back as the Issues endpoint, with the four query fields. */
  function OrgIssuesStats(cfg: Config, st: Store, orgIds: seq<string>, page: Option<int>, pageSize: Option<int>, search: string): (r: Request)
    ensures r.verb == Get && r.authorization == AuthorizationHeader(st) && r.orgIdsBody == None
    ensures KindOfUrl(cfg, r.url) == Some(Issues)
    ensures r.url == cfg.apiUrl + KindPath(Issues) + "?" + Join(StatsFields(orgIds, page, pageSize, search), '&')
  {
    KindOfStatsUrl(cfg, Issues, orgIds, page, pageSize, search);
    StatsQueryIsFields(orgIds, page, pageSize, search);
    StatsRequest(cfg, st, Issues, orgIds, page, pageSize, search)
  }

  /** `getOrgPullRequestStats(...)`: a bearer GET whose URL reads back as the PullRequests endpoint, with the four query fields. */
  function OrgPullRequestStats(cfg: Config, st: Store, orgIds: seq<string>, page: Option<int>, pageSize: Option<int>, search: string): (r: Request)
    ensures r.verb == Get && r.authorization == AuthorizationHeader(st) && r.orgIdsBody == None
    ensures KindOfUrl(cfg, r.url) == Some(PullRequests)
    ensures r.url == cfg.apiUrl + KindPath(PullRequests) + "?" + Join(StatsFields(orgIds, page, pageSize, search), '&')
  {
    KindOfStatsUrl(cfg, PullRequests, orgIds, page, pageSize, search);
    StatsQueryIsFields(orgIds, page, pageSize, search);
    StatsRequest(cfg, st, PullRequests, orgIds, page, pageSize, search)
  }

  /** Reads back which endpoint a statistics URL under `cfg.apiUrl` hits. */
  function KindOfUrl(cfg: Config, url: string): Option<StatsKind>
  {
    var n := |cfg.apiUrl|;
    if |url| < n + 2 || url[..n + 1] != cfg.apiUrl + "/" then None
    else if url[n + 1] == 'c' then Some(Commits)
    else if url[n + 1] == 'i' then Some(Issues)
    else if url[n + 1] == 'p' then Some(PullRequests)
    else None
  }

  /** The endpoint is read back from any URL that starts with the base, its path and '?'. */
  lemma KindOfPrefixedUrl(cfg: Config, kind: StatsKind, tail: string)
    ensures KindOfUrl(cfg, cfg.apiUrl + KindPath(kind) + "?" + tail) == Some(kind)
  {
    var url := cfg.apiUrl + KindPath(kind) + "?" + tail;
    var n := |cfg.apiUrl|;
    var p := KindPath(kind);
    assert url[..n + 1] == cfg.apiUrl + "/" by {
      assert url[..n] == cfg.apiUrl;
      assert url[n] == p[0] == '/';
      assert url[..n + 1] == url[..n] + [url[n]];
    }
    assert url[n + 1] == p[1];
  }

  /** Each builder hits exactly its own path: the endpoint is recoverable from the URL. */
  lemma KindOfStatsUrl(cfg: Config, kind: StatsKind, orgIds: seq<string>, page: Option<int>, pageSize: Option<int>, search: string)
    ensures KindOfUrl(cfg, StatsUrl(cfg, kind, orgIds, page, pageSize, search)) == Some(kind)
  {
    KindOfPrefixedUrl(cfg, kind, StatsQuery(orgIds, page, pageSize, search));
  }

  /** The builders for different kinds never produce the same URL. */
  lemma StatsKindsDistinct(cfg: Config, k1: StatsKind, k2: StatsKind, orgIds1: seq<string>, orgIds2: seq<string>,
                           page1: Option<int>, page2: Option<int>, size1: Option<int>, size2: Option<int>,
                           search1: string, search2: string)
    requires k1 != k2
    ensures StatsUrl(cfg, k1, orgIds1, page1, size1, search1) != StatsUrl(cfg, k2, orgIds2, page2, size2, search2)
  {
    KindOfStatsUrl(cfg, k1, orgIds1, page1, size1, search1);
    KindOfStatsUrl(cfg, k2, orgIds2, page2, size2, search2);
  }

  /** The four query fields in source order. */
  function StatsFields(orgIds: seq<string>, page: Option<int>, pageSize: Option<int>, search: string): seq<string>
  {
    [ "orgIds=" + Join(orgIds, ','),
      "page=" + IntToString(OrDefault(page, DefaultPage)),
      "pageSize=" + IntToString(OrDefault(pageSize, DefaultPageSize)),
      "search=" + search ]
  }

  /** The query string is the four fields in order, separated by '&'. */
  lemma StatsQueryIsFields(orgIds: seq<string>, page: Option<int>, pageSize: Option<int>, search: string)
    ensures StatsQuery(orgIds, page, pageSize, search) == Join(StatsFields(orgIds, page, pageSize, search), '&')
  {
    var f := StatsFields(orgIds, page, pageSize, search);
    assert f[1..][1..][1..] == [f[3]];
    assert Join(f[2..], '&') == f[2] + "&" + f[3] by {
      assert f[2..] == [f[2], f[3]];
      assert f[2..][1..] == [f[3]];
    }
    assert Join(f[1..], '&') == f[1] + "&" + (f[2] + "&" + f[3]) by {
      assert f[1..][1..] == f[2..];
    }
  }

  /** Three separator-free fields followed by a tail split into those fields and the tail's pieces. */
  lemma SplitThreeFields(a: string, b: string, c: string, d: string)
    requires '&' !in a && '&' !in b && '&' !in c
    ensures Split(a + "&" + (b + "&" + (c + "&" + d)), '&') == [a, b, c] + Split(d, '&')
  {
    SplitAtFirst(c, d, '&');
    SplitAtFirst(b, c + "&" + d, '&');
    SplitAtFirst(a, b + "&" + (c + "&" + d), '&');
  }

  /**
   Splitting the query on '&' gives the org, page and page-size fields, then the
   pieces of the search field: since nothing is encoded, a '&' typed into the
   search text starts extra fields.
   */
  lemma StatsQuerySplit(orgIds: seq<string>, page: Option<int>, pageSize: Option<int>, search: string)
    requires forall k :: 0 <= k < |orgIds| ==> '&' !in orgIds[k]
    ensures Split(StatsQuery(orgIds, page, pageSize, search), '&')
         == StatsFields(orgIds, page, pageSize, search)[..3] + Split("search=" + search, '&')
  {
    var f := StatsFields(orgIds, page, pageSize, search);
    JoinAvoids(orgIds, ',', '&');
    IntToStringChars(OrDefault(page, DefaultPage), '&');
    IntToStringChars(OrDefault(pageSize, DefaultPageSize), '&');
    SplitThreeFields(f[0], f[1], f[2], f[3]);
    assert f[..3] == [f[0], f[1], f[2]];
  }


  /** With no '&' in the inputs the query splits into exactly the four fields, in order. */
  lemma StatsQueryExactFields(orgIds: seq<string>, page: Option<int>, pageSize: Option<int>, search: string)
    requires forall k :: 0 <= k < |orgIds| ==> '&' !in orgIds[k]
    requires '&' !in search
    ensures Split(StatsQuery(orgIds, page, pageSize, search), '&') == StatsFields(orgIds, page, pageSize, search)
  {
    StatsQuerySplit(orgIds, page, pageSize, search);
    var f := StatsFields(orgIds, page, pageSize, search);
    assert '&' !in f[3];
    SplitNoSeparator(f[3], '&');
    assert f[..3] + [f[3]] == f;
  }

  /** Omitted page and page size read as page 1 of size 10. */
  lemma StatsDefaults(orgIds: seq<string>, search: string)
    ensures StatsFields(orgIds, None, None, search)[1] == "page=1"
    ensures StatsFields(orgIds, None, None, search)[2] == "pageSize=10"
  {
  }

  /** The org ids field carries every id, recoverable by splitting on ','. */
  lemma StatsOrgIdsRecoverable(orgIds: seq<string>, page: Option<int>, pageSize: Option<int>, search: string)
    requires |orgIds| >= 1
    requires forall k :: 0 <= k < |orgIds| ==> ',' !in orgIds[k]
    ensures var field := StatsFields(orgIds, page, pageSize, search)[0];
            field[..7] == "orgIds=" && Split(field[7..], ',') == orgIds
  {
    var field := StatsFields(orgIds, page, pageSize, search)[0];
    assert field[7..] == Join(orgIds, ',');
    SplitJoin(orgIds, ',');
  }

  /**
   An empty id list and a list holding one empty id send the same field, so
   the list is recoverable only when it is non-empty.
   */
  lemma StatsEmptyOrgIds(page: Option<int>, pageSize: Option<int>, search: string)
    ensures StatsFields([], page, pageSize, search)[0] == "orgIds="
    ensures StatsFields([], page, pageSize, search) == StatsFields([""], page, pageSize, search)
    ensures Split(StatsFields([], page, pageSize, search)[0][7..], ',') == [""]
  {
  }

  /** `handleError`: the client-side message, or the status code and the response message. */
  function HandleError(e: HttpError): (r: string)
    ensures |r| >= 7 && r[..5] == "Error"
    ensures r != UnknownErrorText
  {
    var r := match e.payload
      case ClientEvent(m) => "Error: " + m
      case ServerPayload(_) => "Error Code: " + NatToString(e.status) + "\nMessage: " + e.message;
    assert r[0] != UnknownErrorText[0];
    r
  }

  /** What a reader of the handled message can learn about the error. */
  datatype ErrorReport = ClientReport(message: string) | ServerReport(status: nat, message: string)

  function Report(e: HttpError): ErrorReport
  {
    match e.payload
    case ClientEvent(m) => ClientReport(m)
    case ServerPayload(_) => ServerReport(e.status, e.message)
  }

  /** Reads a message in either of the two shapes `handleError` produces. */
  function ParseErrorMessage(s: string): Option<ErrorReport>
  {
    if |s| >= 12 && s[..12] == "Error Code: " then
      var rest := s[12..];
      match IndexOfChar(rest, '\n')
      case None => None
      case Some(i) =>
        if 1 <= i && AllDigits(rest[..i]) && (i == 1 || rest[0] != '0') && i + 10 <= |rest| && rest[i..i + 10] == "\nMessage: "
        then Some(ServerReport(ParseNat(rest[..i]), rest[i + 10..]))
        else None
    else if |s| >= 7 && s[..7] == "Error: " then Some(ClientReport(s[7..]))
    else None
  }

  /** A status is read only in canonical decimal: digits with a leading zero are refused. */
  lemma ParseRejectsLeadingZero(digits: string, m: string)
    requires |digits| >= 2 && AllDigits(digits) && digits[0] == '0'
    ensures ParseErrorMessage("Error Code: " + digits + "\nMessage: " + m) == None
  {
    var s := "Error Code: " + digits + "\nMessage: " + m;
    var rest := s[12..];
    assert s[..12] == "Error Code: ";
    assert rest == digits + "\nMessage: " + m;
    assert rest[|digits|] == '\n';
    assert forall k :: 0 <= k < |digits| ==> rest[k] == digits[k];
    assert IndexOfChar(rest, '\n') == Some(|digits|);
  }

  /** The handled message loses nothing: kind, status and message all read back. */
  lemma HandleErrorRoundTrip(e: HttpError)
    ensures ParseErrorMessage(HandleError(e)) == Some(Report(e))
  {
    var s := HandleError(e);
    match e.payload
    case ClientEvent(m) =>
      assert s[5] == ':';
      assert s[..7] == "Error: ";
      assert s[7..] == m;
    case ServerPayload(_) =>
      var digits := NatToString(e.status);
      var rest := s[12..];
      assert s[..12] == "Error Code: ";
      assert rest == digits + "\nMessage: " + e.message;
      assert rest[|digits|] == '\n';
      assert forall k :: 0 <= k < |digits| ==> rest[k] == digits[k];
      assert IndexOfChar(rest, '\n') == Some(|digits|);
      assert rest[..|digits|] == digits;
      assert rest[|digits|..|digits| + 10] == "\nMessage: ";
      assert rest[|digits| + 10..] == e.message;
      ParseNatToString(e.status);
  }
}

=== FILE: oauth.dfy ===
/**
 The OAuth component (src/app/oauth/oauth.component.ts) as a state machine.
 Its fields and the credential store form the state; query-parameter
 emissions, button clicks and network completions are events; router
 navigation, the browser redirect and outgoing requests are effects.
 */
module OAuth {
  import opened Text
  import opened Storage
  import opened GitHubService

  /** The `/status` reply (`GitHubUser`); `connectedAt` is not modelled. */
  datatype GitHubUser = GitHubUser(githubUserId: string, username: string, accessToken: string, connected: bool)

  /** The component's fields together with the credential store they depend on. */
  datatype Session = Session(
    isConnected: bool,
    connectedUser: Option<GitHubUser>,
    errorMessage: string,
    storage: Store)

  datatype Effect =
    | Navigate(path: string)   // `router.navigate([path])`
    | RedirectTo(url: string)  // `window.location.href = url`
    | Send(request: Request)   // a request handed to `HttpClient`

  datatype Event =
    | QueryParams(token: Option<string>)  // an emission of `route.queryParams`, its `token` entry
    | StatusReplied(user: Option<GitHubUser>)
    | StatusFailed(error: HttpError)
    | ConnectClicked
    | DisconnectClicked
    | DisconnectSucceeded
    | DisconnectFailed(error: HttpError)

  /** The state after handling something, and the effects it caused, in order. */
  datatype Step = Step(session: Session, effects: seq<Effect>)

  /** JavaScript truthiness of a string that may be absent: neither `null` nor `""`. */
  predicate Truthy(v: Option<string>) {
    v.Some? && v.value != ""
  }

  /** The component as constructed: disconnected, no user, no error. */
  function Fresh(st: Store): Session
  {
    Session(false, None, "", st)
  }

  /** Connection fields agree: connected exactly when a user is held, and that user reported `connected`. */
  predicate Consistent(s: Session) {
    && (s.isConnected <==> s.connectedUser.Some?)
    && (s.connectedUser.Some? ==> s.connectedUser.value.connected)
  }

  /** The `queryParams` subscriber: a truthy `token` is stored verbatim, then the router goes to `/`. */
  function OnQueryParams(s: Session, token: Option<string>): (r: Step)
    ensures Truthy(token) ==> GetToken(r.session.storage) == token && r.effects == [Navigate("/")]
    ensures Truthy(token) ==> forall k :: k != TokenKey ==> GetItem(r.session.storage, k) == GetItem(s.storage, k)
    ensures !Truthy(token) ==> r == Step(s, [])
    ensures r.session.(storage := s.storage) == s
  {
    if Truthy(token) then Step(s.(storage := StoreToken(s.storage, token.value)), [Navigate("/")])
    else Step(s, [])
  }

  /**
   `ngOnInit`: the first `queryParams` emission is handled synchronously, then
   the stored token is read and a status check is sent only when it is truthy.
   */
  function Init(cfg: Config, st: Store, token: Option<string>): (r: Step)
    ensures !r.session.isConnected && r.session.connectedUser == None && r.session.errorMessage == ""
    ensures Truthy(token) ==> GetToken(r.session.storage) == token
    ensures !Truthy(token) ==> r.session.storage == st
    ensures Truthy(token) ==> forall k :: k != TokenKey ==> GetItem(r.session.storage, k) == GetItem(st, k)
    ensures |r.effects| == (if Truthy(token) then 1 else 0) + (if Truthy(GetToken(r.session.storage)) then 1 else 0)
    ensures Truthy(GetToken(r.session.storage)) <==> Truthy(token) || Truthy(GetToken(st))
    ensures Truthy(token) <==> |r.effects| > 0 && r.effects[0] == Navigate("/")
    ensures (exists i :: 0 <= i < |r.effects| && r.effects[i].Send?) <==> Truthy(GetToken(r.session.storage))
    ensures forall i :: 0 <= i < |r.effects| && r.effects[i].Send? ==>
              r.effects[i].request == StatusRequest(cfg, r.session.storage)
  {
    var captured := OnQueryParams(Fresh(st), token);
    var s := captured.session;
    assert forall i :: 0 <= i < |captured.effects| ==> captured.effects[i].Navigate?;
    if Truthy(GetToken(s.storage)) then
      var effects := captured.effects + [Send(StatusRequest(cfg, s.storage))];
      assert effects[|captured.effects|].Send?;
      Step(s, effects)
    else captured
  }

  /** A captured callback token is what the status check presents as its bearer credential. */
  lemma InitSendsCapturedToken(cfg: Config, st: Store, token: Option<string>)
    requires Truthy(token)
    ensures var r := Init(cfg, st, token);
            r.effects == [Navigate("/"), Send(StatusRequest(cfg, r.session.storage))]
            && r.effects[1].request.authorization == BearerPrefix + token.value
  {
  }

  /** The status `next` handler: only a reply with `connected` set changes anything. */
  function OnStatusReply(s: Session, user: Option<GitHubUser>): (r: Step)
    ensures r.effects == []
    ensures user.Some? && user.value.connected ==>
              r.session == s.(isConnected := true, connectedUser := user)
    ensures !(user.Some? && user.value.connected) ==> r.session == s
  {
    match user
    case Some(u) => if u.connected then Step(s.(isConnected := true, connectedUser := user), []) else Step(s, [])
    case None => Step(s, [])
  }

  /** The status `error` handler: the handled message is shown; nothing else changes. */
  function OnStatusError(s: Session, err: HttpError): (r: Step)
    ensures r.effects == []
    ensures r.session == s.(errorMessage := HandleError(err))
    ensures r.session.errorMessage != ""
  {
    Step(s.(errorMessage := HandleError(err)), [])
  }

  /** `connect()`: the browser goes to the GitHub authorize page; local state is untouched. */
  function Connect(cfg: Config, s: Session): (r: Step)
    ensures r.session == s
    ensures r.effects == [RedirectTo(ConnectUrl(cfg))]
  {
    Step(s, [RedirectTo(ConnectUrl(cfg))])
  }

  /** `disconnect()`: a revoke request only when a user is held; no state changes until it completes. */
  function Disconnect(cfg: Config, s: Session): (r: Step)
    ensures r.session == s
    ensures s.connectedUser.Some? ==> r.effects == [Send(DisconnectRequest(cfg, s.storage))]
    ensures s.connectedUser.None? ==> r.effects == []
  {
    if s.connectedUser.Some? then Step(s, [Send(DisconnectRequest(cfg, s.storage))]) else Step(s, [])
  }

  /** The revoke `next` handler: disconnected, user cleared, token removed, back to `/`. */
  function OnDisconnectSuccess(s: Session): (r: Step)
    ensures !r.session.isConnected && r.session.connectedUser == None
    ensures GetToken(r.session.storage) == None
    ensures forall k :: k != TokenKey ==> GetItem(r.session.storage, k) == GetItem(s.storage, k)
    ensures r.session.errorMessage == s.errorMessage
    ensures r.effects == [Navigate("/")]
  {
    Step(s.(isConnected := false, connectedUser := None, storage := RemoveToken(s.storage)), [Navigate("/")])
  }

  /** The revoke `error` handler: the message is shown; token and session stay as they were. */
  function OnDisconnectError(s: Session, err: HttpError): (r: Step)
    ensures r.session.storage == s.storage
    ensures r.session.isConnected == s.isConnected && r.session.connectedUser == s.connectedUser
    ensures r.session.errorMessage == HandleError(err)
    ensures r.effects == []
  {
    Step(s.(errorMessage := HandleError(err)), [])
  }

  /** Dispatches one event to its handler. */
  function Handle(cfg: Config, s: Session, e: Event): Step
  {
    match e
    case QueryParams(t) => OnQueryParams(s, t)
    case StatusReplied(u) => OnStatusReply(s, u)
    case StatusFailed(err) => OnStatusError(s, err)
    case ConnectClicked => Connect(cfg, s)
    case DisconnectClicked => Disconnect(cfg, s)
    case DisconnectSucceeded => OnDisconnectSuccess(s)
    case DisconnectFailed(err) => OnDisconnectError(s, err)
  }

  /** Handles events in order, collecting their effects. */
  function Run(cfg: Config, s: Session, events: seq<Event>): Step
    decreases |events|
  {
    if |events| == 0 then Step(s, [])
    else
      var first := Handle(cfg, s, events[0]);
      var rest := Run(cfg, first.session, events[1..]);
      Step(rest.session, first.effects + rest.effects)
  }

  /** Every handler keeps the connection fields consistent. */
  lemma HandlePreservesConsistent(cfg: Config, s: Session, e: Event)
    requires Consistent(s)
    ensures Consistent(Handle(cfg, s, e).session)
  {
  }

  /** From initialisation on, the connection fields stay consistent along any run. */
  lemma {:induction false} RunPreservesConsistent(cfg: Config, s: Session, events: seq<Event>)
    requires Consistent(s)
    ensures Consistent(Run(cfg, s, events).session)
    decreases |events|
  {
    if |events| > 0 {
      HandlePreservesConsistent(cfg, s, events[0]);
      RunPreservesConsistent(cfg, Handle(cfg, s, events[0]).session, events[1..]);
    }
  }

  /** Only a successful revoke takes a stored token away. */
  lemma OnlyDisconnectSuccessClearsToken(cfg: Config, s: Session, e: Event)
    requires GetToken(s.storage).Some?
    requires GetToken(Handle(cfg, s, e).session.storage).None?
    ensures e.DisconnectSucceeded?
  {
  }

  /** Only a successful revoke ends a connected session. */
  lemma OnlyDisconnectSuccessDisconnects(cfg: Config, s: Session, e: Event)
    requires s.isConnected
    requires !Handle(cfg, s, e).session.isConnected
    ensures e.DisconnectSucceeded?
  {
  }

  /**
   A failed revoke never logs the user out: along any run without a successful
   revoke, a stored token stays stored and a connected session stays connected.
   */
  lemma {:induction false} SessionSurvivesFailedDisconnects(cfg: Config, s: Session, events: seq<Event>)
    requires forall i :: 0 <= i < |events| ==> !events[i].DisconnectSucceeded?
    ensures GetToken(s.storage).Some? ==> GetToken(Run(cfg, s, events).session.storage).Some?
    ensures s.isConnected ==> Run(cfg, s, events).session.isConnected
    decreases |events|
  {
    if |events| > 0 {
      var next := Handle(cfg, s, events[0]).session;
      if GetToken(s.storage).Some? && GetToken(next.storage).None? {
        OnlyDisconnectSuccessClearsToken(cfg, s, events[0]);
      }
      if s.isConnected && !next.isConnected {
        OnlyDisconnectSuccessDisconnects(cfg, s, events[0]);
      }
      SessionSurvivesFailedDisconnects(cfg, next, events[1..]);
    }
  }

  /** A revoke request leaves only from a click while a user is held. */
  lemma RevokeOnlyWithUser(cfg: Config, s: Session, e: Event, i: nat)
    requires i < |Handle(cfg, s, e).effects|
    requires Handle(cfg, s, e).effects[i].Send? && Handle(cfg, s, e).effects[i].request.verb == Delete
    ensures e.DisconnectClicked? && s.connectedUser.Some?
  {
  }
  /** A status check leaving the component: a GET of a URL ending in "/status". */
  predicate IsStatusCheck(e: Effect) {
    && e.Send? && e.request.verb == Get
    && |e.request.url| >= 7 && e.request.url[|e.request.url| - 7..] == "/status"
  }

  /** The outcome of a status check: its reply or its error. */
  predicate IsStatusOutcome(e: Event) {
    e.StatusReplied? || e.StatusFailed?
  }

  /** How many status checks a list of effects sends. */
  function StatusChecks(effects: seq<Effect>): nat
    decreases |effects|
  {
    if |effects| == 0 then 0
    else (if IsStatusCheck(effects[0]) then 1 else 0) + StatusChecks(effects[1..])
  }

  /**
   A realistic trace: every status outcome answers one of `pending` checks
   still in flight. No handler sends a status check (`HandleSendsNoStatusCheck`),
   so after `Init` the count only goes down.
   */
  predicate OutcomesAnswerChecks(pending: nat, events: seq<Event>)
    decreases |events|
  {
    if |events| == 0 then true
    else if IsStatusOutcome(events[0]) then pending > 0 && OutcomesAnswerChecks(pending - 1, events[1..])
    else OutcomesAnswerChecks(pending, events[1..])
  }

  /** The status check is sent from `ngOnInit` only; handlers send at most the revoke. */
  lemma HandleSendsNoStatusCheck(cfg: Config, s: Session, e: Event)
    ensures StatusChecks(Handle(cfg, s, e).effects) == 0
  {
  }

  /** `Init` sends a status check exactly when the stored token is truthy after capture. */
  lemma InitStatusChecks(cfg: Config, st: Store, token: Option<string>)
    ensures var r := Init(cfg, st, token);
            StatusChecks(r.effects) == if Truthy(GetToken(r.session.storage)) then 1 else 0
  {
    var r := Init(cfg, st, token);
    if Truthy(token) {
      InitSendsCapturedToken(cfg, st, token);
      assert !IsStatusCheck(r.effects[0]);
      assert r.effects[1..] == [Send(StatusRequest(cfg, r.session.storage))];
      assert r.effects[1..][1..] == [];
      assert StatusChecks(r.effects[1..]) == 1;
    } else if Truthy(GetToken(st)) {
      assert r.effects == [Send(StatusRequest(cfg, r.session.storage))];
      assert r.effects[1..] == [];
    } else {
      assert r.effects == [];
    }
  }

  /** With no status outcome to act on, a disconnected session stays disconnected along any run. */
  lemma {:induction false} DisconnectedWithoutOutcomes(cfg: Config, s: Session, events: seq<Event>)
    requires !s.isConnected && s.connectedUser == None
    requires OutcomesAnswerChecks(0, events)
    ensures !Run(cfg, s, events).session.isConnected
    ensures Run(cfg, s, events).session.connectedUser == None
    decreases |events|
  {
    if |events| > 0 {
      DisconnectedWithoutOutcomes(cfg, Handle(cfg, s, events[0]).session, events[1..]);
    }
  }

  /**
   Without a truthy token, either from the callback or already stored, no
   status check is sent and the page never shows a connected user.
   */
  lemma NoTokenNeverConnects(cfg: Config, st: Store, token: Option<string>, events: seq<Event>)
    requires !Truthy(token) && !Truthy(GetToken(st))
    requires OutcomesAnswerChecks(StatusChecks(Init(cfg, st, token).effects), events)
    ensures !Run(cfg, Init(cfg, st, token).session, events).session.isConnected
    ensures Run(cfg, Init(cfg, st, token).session, events).session.connectedUser == None
  {
    InitStatusChecks(cfg, st, token);
    DisconnectedWithoutOutcomes(cfg, Init(cfg, st, token).session, events);
  }
}

=== FILE: repositories.dfy ===
/**
 The repositories component (src/app/repositories/repositories.component.ts):
 the organisation grid, the selection that drives the statistics request,
 the two loading flags, the error notification, and the two computed
 columns of the organisation grid. Replies are events; requests and
 notifications are effects. Replies carry no request identity: whatever
 arrives is applied.
 */
module Repositories {
  import opened Text
  import opened Storage
  import opened GitHubService

  /** An organisation row; the profile fields the component never reads are left out. */
  datatype Organization = Organization(id: Option<int>, login: Option<string>, url: Option<string>)

  /** A row of the statistics grid. */
  datatype UserStat = UserStat(userId: string, user: string, totalCommits: int, totalPRs: int, totalIssues: int)

  /**
   The component's fields. `reposGridReady` records whether `gridApiRepos` has
   been set; `storage` is `localStorage` as the next request will read it.
   */
  datatype Repos = Repos(
    organizations: seq<Organization>,
    selectedRepo: seq<Option<string>>,
    userStats: seq<UserStat>,
    isLoadingOrgs: bool,
    isLoadingStats: bool,
    reposGridReady: bool,
    storage: Store)

  datatype Effect =
    | Send(request: Request)
    | ShowSnackbar(message: string)  // `snackBar.open(message, 'Close')`

  datatype Event =
    | OrgsLoaded(orgs: seq<Organization>)
    | OrgsFailed(orgsError: HttpError)
    | ReposGridReady
    | StatsGridReady
    | SelectionChanged(rows: seq<Organization>)  // `api.getSelectedRows()` at the time of the event
    | StatsLoaded(stats: seq<UserStat>)
    | StatsFailed(statsError: HttpError)
    | StorageWritten(written: Store)  // another part of the page wrote `localStorage`

  datatype Step = Step(state: Repos, effects: seq<Effect>)

  const GenericErrorText: string := "An error has occurred!"
  const ApiHost: string := "api.github.com"
  const WebHost: string := "github.com"

  /** `ngOnInit`: the field initialisers, and the organisations request sent at once. */
  function Init(cfg: Config, st: Store): (r: Step)
    ensures r.state.organizations == [] && r.state.selectedRepo == [] && r.state.userStats == []
    ensures !r.state.isLoadingOrgs && !r.state.isLoadingStats && !r.state.reposGridReady
    ensures r.state.storage == st
    ensures r.effects == [Send(OrganizationsRequest(cfg, st))]
  {
    Step(Repos([], [], [], false, false, false, st), [Send(OrganizationsRequest(cfg, st))])
  }

  /** `error?.error?.error`: the `error` field of a server body; an `ErrorEvent` has none. */
  function ServerErrorField(err: HttpError): (r: Option<string>)
    ensures err.payload.ClientEvent? ==> r == None
    ensures err.payload.ServerPayload? ==> r == err.payload.errorField
  {
    match err.payload
    case ClientEvent(_) => None
    case ServerPayload(f) => f
  }

  /** `showError`: the given text when truthy, the generic text when absent or empty. */
  function SnackbarText(error: Option<string>): (r: string)
    ensures r != ""
    ensures error.Some? && error.value != "" ==> r == error.value
    ensures error.None? || error.value == "" ==> r == GenericErrorText
  {
    match error
    case Some(m) => if m != "" then m else GenericErrorText
    case None => GenericErrorText
  }

  /** `onGridReadyRepos`: the grid handle is set and the organisation spinner is on. */
  function OnReposGridReady(s: Repos): (r: Step)
    ensures r.state == s.(isLoadingOrgs := true, reposGridReady := true)
    ensures r.effects == []
  {
    Step(s.(isLoadingOrgs := true, reposGridReady := true), [])
  }

  /** `onGridReadyStats`: the statistics spinner is on. */
  function OnStatsGridReady(s: Repos): (r: Step)
    ensures r.state == s.(isLoadingStats := true)
    ensures r.effects == []
  {
    Step(s.(isLoadingStats := true), [])
  }

  /**
   The organisations `next` handler. It starts with `gridApiRepos.hideOverlay()`:
   before the grid is ready that call throws, and nothing after it runs.
   */
  function OnOrgsLoaded(s: Repos, orgs: seq<Organization>): (r: Step)
    ensures s.reposGridReady ==> r.state == s.(isLoadingOrgs := false, organizations := orgs)
    ensures !s.reposGridReady ==> r.state == s
    ensures r.effects == []
  {
    if s.reposGridReady then Step(s.(isLoadingOrgs := false, organizations := orgs), []) else Step(s, [])
  }

  /** The organisations `error` handler: spinner off, message shown, the list kept; same guard. */
  function OnOrgsFailed(s: Repos, err: HttpError): (r: Step)
    ensures s.reposGridReady ==> r.state == s.(isLoadingOrgs := false)
    ensures s.reposGridReady ==> r.effects == [ShowSnackbar(SnackbarText(ServerErrorField(err)))]
    ensures !s.reposGridReady ==> r == Step(s, [])
  {
    if s.reposGridReady then Step(s.(isLoadingOrgs := false), [ShowSnackbar(SnackbarText(ServerErrorField(err)))])
    else Step(s, [])
  }

  /** The `login` of every selected row, in selection order. */
  function Logins(rows: seq<Organization>): (r: seq<Option<string>>)
    ensures |r| == |rows|
    ensures forall i :: 0 <= i < |rows| ==> r[i] == rows[i].login
  {
    seq(|rows|, i requires 0 <= i < |rows| => rows[i].login)
  }

  /**
   `selectionChanged`: the selected logins become `selectedRepo`; a non-empty
   selection turns the spinner on and sends one `/orgs-stats` request for them,
   an empty one turns it off and clears the statistics.
   */
  function OnSelectionChanged(cfg: Config, s: Repos, rows: seq<Organization>): (r: Step)
    ensures |r.state.selectedRepo| == |rows|
    ensures forall i :: 0 <= i < |rows| ==> r.state.selectedRepo[i] == rows[i].login
    ensures |rows| > 0 ==> r.state.isLoadingStats && r.state.userStats == s.userStats
    ensures |rows| > 0 ==> r.effects == [Send(OrganizationsStatsRequest(cfg, s.storage, r.state.selectedRepo))]
    ensures |rows| == 0 ==> !r.state.isLoadingStats && r.state.userStats == [] && r.effects == []
    ensures r.state.organizations == s.organizations && r.state.isLoadingOrgs == s.isLoadingOrgs
    ensures r.state.reposGridReady == s.reposGridReady && r.state.storage == s.storage
  {
    var slugs := Logins(rows);
    var s1 := s.(selectedRepo := slugs);
    if |slugs| > 0 then Step(s1.(isLoadingStats := true), [Send(OrganizationsStatsRequest(cfg, s.storage, slugs))])
    else Step(s1.(isLoadingStats := false, userStats := []), [])
  }

  /** The statistics `next` handler: spinner off, the reply becomes the grid's rows. */
  function OnStatsLoaded(s: Repos, stats: seq<UserStat>): (r: Step)
    ensures r.state == s.(isLoadingStats := false, userStats := stats)
    ensures r.effects == []
  {
    Step(s.(isLoadingStats := false, userStats := stats), [])
  }

  /** The statistics `error` handler: spinner off, message shown, the last rows kept. */
  function OnStatsFailed(s: Repos, err: HttpError): (r: Step)
    ensures r.state == s.(isLoadingStats := false)
    ensures r.state.userStats == s.userStats
    ensures r.effects == [ShowSnackbar(SnackbarText(ServerErrorField(err)))]
  {
    Step(s.(isLoadingStats := false), [ShowSnackbar(SnackbarText(ServerErrorField(err)))])
  }

  /** Dispatches one event to its handler; requests read the storage as it is at that moment. */
  function Handle(cfg: Config, s: Repos, e: Event): Step
  {
    match e
    case OrgsLoaded(orgs) => OnOrgsLoaded(s, orgs)
    case OrgsFailed(err) => OnOrgsFailed(s, err)
    case ReposGridReady => OnReposGridReady(s)
    case StatsGridReady => OnStatsGridReady(s)
    case SelectionChanged(rows) => OnSelectionChanged(cfg, s, rows)
    case StatsLoaded(stats) => OnStatsLoaded(s, stats)
    case StatsFailed(err) => OnStatsFailed(s, err)
    case StorageWritten(written) => Step(s.(storage := written), [])
  }

  /** Handles events in order, collecting their effects. */
  function Run(cfg: Config, s: Repos, events: seq<Event>): Step
    decreases |events|
  {
    if |events| == 0 then Step(s, [])
    else
      var first := Handle(cfg, s, events[0]);
      var rest := Run(cfg, first.state, events[1..]);
      Step(rest.state, first.effects + rest.effects)
  }

  /** Running a trace and then one more event is handling that event last. */
  lemma {:induction false} RunSnoc(cfg: Config, s: Repos, events: seq<Event>, e: Event)
    ensures Run(cfg, s, events + [e]).state == Handle(cfg, Run(cfg, s, events).state, e).state
    decreases |events|
  {
    if |events| == 0 {
      assert events + [e] == [e];
    } else {
      assert (events + [e])[1..] == events[1..] + [e];
      RunSnoc(cfg, Handle(cfg, s, events[0]).state, events[1..], e);
    }
  }

  /**
   The statistics rows a run ends with, read backwards from its last event: the
   data of the last reply, or empty after the last empty selection, whichever
   came later, regardless of which selection the reply answered.
   */
  function ExpectedStats(initial: seq<UserStat>, events: seq<Event>): seq<UserStat>
    decreases |events|
  {
    if |events| == 0 then initial
    else
      var last := events[|events| - 1];
      if last.StatsLoaded? then last.stats
      else if last.SelectionChanged? && |last.rows| == 0 then []
      else ExpectedStats(initial, events[..|events| - 1])
  }

  /** The statistics spinner a run ends with, read backwards from its last event. */
  function ExpectedLoadingStats(initial: bool, events: seq<Event>): bool
    decreases |events|
  {
    if |events| == 0 then initial
    else
      var last := events[|events| - 1];
      if last.StatsLoaded? || last.StatsFailed? then false
      else if last.SelectionChanged? then |last.rows| > 0
      else if last.StatsGridReady? then true
      else ExpectedLoadingStats(initial, events[..|events| - 1])
  }

  /**
   Without a stale-response guard, the statistics grid shows the last reply
   applied (or nothing after the last empty selection), and the spinner
   reflects the last relevant event only.
   */
  lemma {:induction false} StatsFollowLastEvent(cfg: Config, s: Repos, events: seq<Event>)
    ensures Run(cfg, s, events).state.userStats == ExpectedStats(s.userStats, events)
    ensures Run(cfg, s, events).state.isLoadingStats == ExpectedLoadingStats(s.isLoadingStats, events)
    decreases |events|
  {
    if |events| > 0 {
      var prefix := events[..|events| - 1];
      var last := events[|events| - 1];
      assert events == prefix + [last];
      RunSnoc(cfg, s, prefix, last);
      StatsFollowLastEvent(cfg, s, prefix);
      HandleStatsFields(cfg, Run(cfg, s, prefix).state, last);
    }
  }

  /** What one event does to the statistics rows and spinner, ignoring every other field. */
  lemma HandleStatsFields(cfg: Config, s: Repos, e: Event)
    ensures Handle(cfg, s, e).state.userStats ==
              if e.StatsLoaded? then e.stats
              else if e.SelectionChanged? && |e.rows| == 0 then []
              else s.userStats
    ensures Handle(cfg, s, e).state.isLoadingStats ==
              if e.StatsLoaded? || e.StatsFailed? then false
              else if e.SelectionChanged? then |e.rows| > 0
              else if e.StatsGridReady? then true
              else s.isLoadingStats
  {
  }

  /**
   A reply for an abandoned selection still wins if it arrives last: after
   selecting A, then B, B's reply and then A's, the grid shows A's data
   while `selectedRepo` names B.
   */
  lemma LateReplyOverwrites(cfg: Config, s: Repos, rowsA: seq<Organization>, rowsB: seq<Organization>,
                            dataA: seq<UserStat>, dataB: seq<UserStat>)
    requires |rowsA| > 0 && |rowsB| > 0
    ensures var r := Run(cfg, s, [SelectionChanged(rowsA), SelectionChanged(rowsB), StatsLoaded(dataB), StatsLoaded(dataA)]).state;
            r.userStats == dataA && r.selectedRepo == Logins(rowsB) && !r.isLoadingStats
  {
    var events := [SelectionChanged(rowsA), SelectionChanged(rowsB), StatsLoaded(dataB), StatsLoaded(dataA)];
    StatsFollowLastEvent(cfg, s, events);
    assert events[..3][..2][1..] == [SelectionChanged(rowsB)];
    var s2 := Run(cfg, s, events[..2]).state;
    RunSnoc(cfg, s, events[..2], events[2]);
    RunSnoc(cfg, s, events[..3], events[3]);
    assert events[..2] == [SelectionChanged(rowsA)] + [SelectionChanged(rowsB)];
    RunSnoc(cfg, s, [SelectionChanged(rowsA)], SelectionChanged(rowsB));
    assert events[..3] == events[..2] + [events[2]];
    assert events == events[..3] + [events[3]];
  }

  /**
   The organisation grid's own invariant: its spinner is only on once the grid
   is ready, and before that no organisations have been shown.
   */
  predicate OrgsWellFormed(s: Repos) {
    && (s.isLoadingOrgs ==> s.reposGridReady)
    && (!s.reposGridReady ==> s.organizations == [])
  }

  /** Every handler keeps the organisation grid well formed. */
  lemma HandlePreservesOrgsWellFormed(cfg: Config, s: Repos, e: Event)
    requires OrgsWellFormed(s)
    ensures OrgsWellFormed(Handle(cfg, s, e).state)
  {
  }

  /** From initialisation on, the organisation grid stays well formed along any run. */
  lemma {:induction false} RunPreservesOrgsWellFormed(cfg: Config, s: Repos, events: seq<Event>)
    requires OrgsWellFormed(s)
    ensures OrgsWellFormed(Run(cfg, s, events).state)
    decreases |events|
  {
    if |events| > 0 {
      HandlePreservesOrgsWellFormed(cfg, s, events[0]);
      RunPreservesOrgsWellFormed(cfg, Handle(cfg, s, events[0]).state, events[1..]);
    }
  }

  /**
   An organisations reply that beats the grid's ready event is lost: the list
   stays empty and the spinner, switched on afterwards, stays on.
   */
  lemma EarlyOrgsReplyLost(cfg: Config, st: Store, orgs: seq<Organization>)
    ensures var r := Run(cfg, Init(cfg, st).state, [OrgsLoaded(orgs), ReposGridReady]).state;
            r.organizations == [] && r.isLoadingOrgs
  {
    RunSnoc(cfg, Init(cfg, st).state, [OrgsLoaded(orgs)], ReposGridReady);
    RunSnoc(cfg, Init(cfg, st).state, [], OrgsLoaded(orgs));
    assert [] + [OrgsLoaded(orgs)] == [OrgsLoaded(orgs)];
    assert [OrgsLoaded(orgs)] + [ReposGridReady] == [OrgsLoaded(orgs), ReposGridReady];
  }

  /** Once the grid is ready, an organisations reply is shown and the spinner goes off. */
  lemma OrgsReplyAfterGridReady(cfg: Config, s: Repos, orgs: seq<Organization>)
    ensures var r := Run(cfg, s, [ReposGridReady, OrgsLoaded(orgs)]).state;
            r.organizations == orgs && !r.isLoadingOrgs && r.reposGridReady
  {
    RunSnoc(cfg, s, [ReposGridReady], OrgsLoaded(orgs));
    RunSnoc(cfg, s, [], ReposGridReady);
    assert [] + [ReposGridReady] == [ReposGridReady];
    assert [ReposGridReady] + [OrgsLoaded(orgs)] == [ReposGridReady, OrgsLoaded(orgs)];
  }

  /** A statistics failure never touches the rows, the selection or the organisations. */
  lemma StatsFailureKeepsData(cfg: Config, s: Repos, err: HttpError)
    ensures var r := Handle(cfg, s, StatsFailed(err));
            r.state.userStats == s.userStats && r.state.selectedRepo == s.selectedRepo
            && r.state.organizations == s.organizations && !r.state.isLoadingStats
            && |r.effects| == 1 && r.effects[0].ShowSnackbar? && r.effects[0].message != ""
  {
  }

  /** Exactly one request leaves on a selection event, and only when the selection is non-empty. */
  lemma SelectionSendsAtMostOne(cfg: Config, s: Repos, rows: seq<Organization>)
    ensures var r := Handle(cfg, s, SelectionChanged(rows));
            |r.effects| == (if |rows| > 0 then 1 else 0)
            && (|rows| > 0 ==> r.effects[0].request.orgIdsBody == Some(Logins(rows)))
  {
  }

  /**
   Requests read `localStorage` when they are built: once the token has been
   removed elsewhere, the next statistics request carries `Bearer null`.
   */
  lemma RequestReadsCurrentStorage(cfg: Config, s: Repos, rows: seq<Organization>)
    requires |rows| > 0
    ensures var r := Run(cfg, s, [StorageWritten(RemoveToken(s.storage)), SelectionChanged(rows)]);
            && r.effects == [Send(OrganizationsStatsRequest(cfg, RemoveToken(s.storage), Logins(rows)))]
            && r.effects[0].request.authorization == "Bearer null"
  {
    var events := [StorageWritten(RemoveToken(s.storage)), SelectionChanged(rows)];
    var s1 := s.(storage := RemoveToken(s.storage));
    assert Handle(cfg, s, events[0]) == Step(s1, []);
    assert events[1..] == [SelectionChanged(rows)];
    assert events[1..][1..] == [];
    var last := OnSelectionChanged(cfg, s1, rows);
    assert Run(cfg, s1, events[1..]).effects == last.effects + [];
    assert last.state.selectedRepo == Logins(rows);
  }

  /** The Link column: the first `api.github.com` becomes `github.com`; a missing URL stays missing. */
  function LinkValue(url: Option<string>): (r: Option<string>)
    ensures url.None? <==> r.None?
    ensures url.Some? && (forall j :: !OccursAt(url.value, ApiHost, j)) ==> r == url
  {
    match url
    case None => None
    case Some(u) => Some(ReplaceFirst(u, ApiHost, WebHost))
  }

  /** An API URL becomes the matching web URL: only the first host occurrence is rewritten. */
  lemma LinkRewritesApiHost(a: string, b: string)
    requires forall j: nat :: j < |a| ==> !OccursAt(a + ApiHost + b, ApiHost, j)
    ensures LinkValue(Some(a + ApiHost + b)) == Some(a + WebHost + b)
  {
    ReplaceFirstAt(a, ApiHost, b, WebHost);
  }

  /** The Repo Name column: `url.split('/').pop()`; a missing URL stays missing. */
  function RepoNameValue(url: Option<string>): (r: Option<string>)
    ensures url.None? <==> r.None?
  {
    match url
    case None => None
    case Some(u) => Some(LastPiece(u, '/'))
  }

  /**
   The Repo Name is the text after the last '/', or the whole URL when it has
   none: it holds no '/', it ends the URL, and a '/' stands right before it.
   */
  lemma RepoNameIsLastSegment(u: string)
    ensures var n := RepoNameValue(Some(u)).value;
            && '/' !in n
            && |n| <= |u| && u[|u| - |n|..] == n
            && (|n| < |u| ==> u[|u| - |n| - 1] == '/')
            && (|n| == |u| <==> '/' !in u)
  {
    LastPieceIsSuffix(u, '/');
  }
}

=== FILE: storage.dfy ===
/**
 The browser's `localStorage` as a string-to-string map, and the credential
 store the service keeps in it under the single key `jwtToken`.
 */
module Storage {
  import opened Text

  /** Persistent client storage: every key the page has written. */
  type Store = map<string, string>

  /** The one key the credential lives under. */
  const TokenKey: string := "jwtToken"

  /** `localStorage.getItem(key)`: the stored value, or `null` when the key is absent. */
  function GetItem(st: Store, key: string): (r: Option<string>)
    ensures r.Some? <==> key in st
    ensures r.Some? ==> r.value == st[key]
  {
    if key in st then Some(st[key]) else None
  }

  /** `getToken()`: the stored credential, if any. */
  function GetToken(st: Store): (r: Option<string>)
    ensures r.Some? <==> TokenKey in st
    ensures r.Some? ==> r.value == st[TokenKey]
  {
    GetItem(st, TokenKey)
  }

  /** `storeToken(token)`: writes the credential verbatim; no other key is touched. */
  function StoreToken(st: Store, token: string): (r: Store)
    ensures GetToken(r) == Some(token)
    ensures forall k :: k != TokenKey ==> GetItem(r, k) == GetItem(st, k)
  {
    st[TokenKey := token]
  }

  /** `removeToken()`: deletes the credential; no other key is touched. */
  function RemoveToken(st: Store): (r: Store)
    ensures GetToken(r) == None
    ensures forall k :: k != TokenKey ==> GetItem(r, k) == GetItem(st, k)
  {
    st - {TokenKey}
  }

  /** With one key, a later store replaces an earlier one wholesale. */
  lemma StoreTokenReplaces(st: Store, t1: string, t2: string)
    ensures StoreToken(StoreToken(st, t1), t2) == StoreToken(st, t2)
  {
  }

  /** Removing after storing leaves the store as removing alone would. */
  lemma RemoveAfterStore(st: Store, t: string)
    ensures RemoveToken(StoreToken(st, t)) == RemoveToken(st)
  {
  }

  /** Storing the credential that is already there changes nothing. */
  lemma StoreTokenIdempotent(st: Store, t: string)
    requires GetToken(st) == Some(t)
    ensures StoreToken(st, t) == st
  {
  }
}

=== FILE: text.dfy ===
/**
 Strings as the client's TypeScript builds them: decimal rendering of numbers
 inside template literals, `Array.prototype.join`, `String.prototype.split`,
 `indexOf`, and `replace` with a string pattern (first occurrence only).
 */
module Text {

  /** A value that may be absent (TypeScript's `null` / `undefined`). */
  datatype Option<+T> = None | Some(value: T)

  predicate IsDigit(c: char) {
    '0' <= c <= '9'
  }

  predicate AllDigits(s: string) {
    forall i :: 0 <= i < |s| ==> IsDigit(s[i])
  }

  function DigitChar(d: nat): (c: char)
    requires d < 10
    ensures IsDigit(c)
    ensures c as int - '0' as int == d
  {
    ('0' as int + d) as char
  }

  function DigitValue(c: char): nat
    requires IsDigit(c)
  {
    c as int - '0' as int
  }

  /** The decimal text of a non-negative number, as `${n}` renders it. */
  function NatToString(n: nat): (r: string)
    ensures |r| >= 1
    ensures AllDigits(r)
    ensures r[0] == '0' ==> n == 0
  {
    if n < 10 then [DigitChar(n)] else NatToString(n / 10) + [DigitChar(n % 10)]
  }

  /** Reads a string of decimal digits back as a number. */
  function ParseNat(s: string): nat
    requires AllDigits(s)
  {
    if |s| == 0 then 0 else 10 * ParseNat(s[..|s| - 1]) + DigitValue(s[|s| - 1])
  }

  /** Decimal rendering is lossless: the digits read back as the number. */
  lemma {:induction false} ParseNatToString(n: nat)
    ensures ParseNat(NatToString(n)) == n
  {
    var s := NatToString(n);
    if n >= 10 {
      assert s[..|s| - 1] == NatToString(n / 10);
      ParseNatToString(n / 10);
    }
  }

  /** The decimal text of an integer, with a leading '-' when negative. */
  function IntToString(i: int): (r: string)
    ensures |r| >= 1
    ensures i >= 0 ==> AllDigits(r) && ParseNat(r) == i
    ensures i < 0 ==> r[0] == '-' && AllDigits(r[1..]) && ParseNat(r[1..]) == -i
  {
    if i < 0 then
      ParseNatToString(-i);
      assert ("-" + NatToString(-i))[1..] == NatToString(-i);
      "-" + NatToString(-i)
    else
      ParseNatToString(i);
      NatToString(i)
  }

  /** `xs.join(sep)`: the elements with one separator between neighbours. */
  function Join(xs: seq<string>, sep: char): string
  {
    if |xs| == 0 then ""
    else if |xs| == 1 then xs[0]
    else xs[0] + [sep] + Join(xs[1..], sep)
  }

  /** A character that is neither the separator nor in any element is not in the joined text. */
  lemma {:induction false} JoinAvoids(xs: seq<string>, sep: char, c: char)
    requires c != sep
    requires forall k :: 0 <= k < |xs| ==> c !in xs[k]
    ensures c !in Join(xs, sep)
    decreases |xs|
  {
    if |xs| > 1 {
      JoinAvoids(xs[1..], sep, c);
      assert forall k :: 0 <= k < |xs| - 1 ==> xs[1..][k] == xs[k + 1];
    }
  }

  /** The decimal text of an integer holds only digits and possibly a leading '-'. */
  lemma IntToStringChars(i: int, c: char)
    requires !IsDigit(c) && c != '-'
    ensures c !in IntToString(i)
  {
  }

  /** The first index of `c` in `s`, if any. */
  function IndexOfChar(s: string, c: char): (r: Option<nat>)
    ensures r.Some? ==> r.value < |s| && s[r.value] == c && c !in s[..r.value]
    ensures r.None? ==> c !in s
  {
    if |s| == 0 then None
    else if s[0] == c then Some(0)
    else match IndexOfChar(s[1..], c)
      case None => None
      case Some(i) =>
        assert s[..i + 1] == [s[0]] + s[1..][..i];
        Some(i + 1)
  }

  /** `s.split(sep)` for a one-character separator: the maximal runs between separators. */
  function Split(s: string, sep: char): (r: seq<string>)
    ensures |r| >= 1
    ensures forall k :: 0 <= k < |r| ==> sep !in r[k]
    decreases |s|
  {
    match IndexOfChar(s, sep)
    case None => [s]
    case Some(i) => [s[..i]] + Split(s[i + 1..], sep)
  }

  /** A string is cut at its first separator. */
  lemma SplitAtFirst(a: string, b: string, sep: char)
    requires sep !in a
    ensures Split(a + [sep] + b, sep) == [a] + Split(b, sep)
  {
    var s := a + [sep] + b;
    assert s[|a|] == sep;
    assert forall k :: 0 <= k < |a| ==> s[k] == a[k];
    assert s[..|a|] == a;
    assert s[|a| + 1..] == b;
    var r := IndexOfChar(s, sep);
    assert r == Some(|a|);
  }

  /** Splitting a joined list gives the list back when no element holds the separator. */
  lemma {:induction false} SplitJoin(xs: seq<string>, sep: char)
    requires |xs| >= 1
    requires forall k :: 0 <= k < |xs| ==> sep !in xs[k]
    ensures Split(Join(xs, sep), sep) == xs
    decreases |xs|
  {
    if |xs| == 1 {
      assert Join(xs, sep) == xs[0];
    } else {
      SplitAtFirst(xs[0], Join(xs[1..], sep), sep);
      SplitJoin(xs[1..], sep);
      assert [xs[0]] + xs[1..] == xs;
    }
  }

  /** Joining the pieces of a split gives the original string back. */
  lemma {:induction false} JoinSplit(s: string, sep: char)
    ensures Join(Split(s, sep), sep) == s
    decreases |s|
  {
    match IndexOfChar(s, sep)
    case None =>
    case Some(i) =>
      var rest := Split(s[i + 1..], sep);
      JoinSplit(s[i + 1..], sep);
      var xs := [s[..i]] + rest;
      assert xs[1..] == rest;
      assert Join(xs, sep) == s[..i] + [sep] + Join(rest, sep);
      assert s == s[..i] + [s[i]] + s[i + 1..];
  }

  /** A string without the separator splits into itself alone. */
  lemma SplitNoSeparator(s: string, sep: char)
    requires sep !in s
    ensures Split(s, sep) == [s]
  {
  }

  /** The last piece of a split (`split(sep).pop()`). */
  function LastPiece(s: string, sep: char): string
  {
    var pieces := Split(s, sep);
    pieces[|pieces| - 1]
  }

  /** The last piece is the suffix after the last separator, or all of `s` when there is none. */
  lemma {:induction false} LastPieceIsSuffix(s: string, sep: char)
    ensures sep !in LastPiece(s, sep)
    ensures |LastPiece(s, sep)| <= |s|
    ensures s[|s| - |LastPiece(s, sep)|..] == LastPiece(s, sep)
    ensures |LastPiece(s, sep)| < |s| ==> s[|s| - |LastPiece(s, sep)| - 1] == sep
    ensures |LastPiece(s, sep)| == |s| <==> sep !in s
    decreases |s|
  {
    match IndexOfChar(s, sep)
    case None =>
    case Some(i) =>
      var t := s[i + 1..];
      LastPieceIsSuffix(t, sep);
      var pieces := Split(s, sep);
      assert pieces == [s[..i]] + Split(t, sep);
      assert LastPiece(s, sep) == LastPiece(t, sep);
      var r := LastPiece(t, sep);
      assert s[|s| - |r|..] == t[|t| - |r|..];
      if |r| == |t| {
        assert s[|s| - |r| - 1] == s[i];
      } else {
        assert s[|s| - |r| - 1] == t[|t| - |r| - 1];
      }
  }

  /** `pat` occurs in `s` starting at index `i`. */
  predicate OccursAt(s: string, pat: string, i: nat)
  {
    i + |pat| <= |s| && s[i..i + |pat|] == pat
  }

  /** The first index at or after `from` where `pat` occurs, as `s.indexOf(pat, from)`. */
  function IndexOfFrom(s: string, pat: string, from: nat): (r: Option<nat>)
    ensures r.Some? ==> from <= r.value && OccursAt(s, pat, r.value)
    ensures r.Some? ==> forall j :: from <= j < r.value ==> !OccursAt(s, pat, j)
    ensures r.None? ==> forall j :: from <= j ==> !OccursAt(s, pat, j)
    decreases |s| - from
  {
    if from + |pat| > |s| then None
    else if s[from..from + |pat|] == pat then Some(from)
    else IndexOfFrom(s, pat, from + 1)
  }

  /** `s.replace(pat, rep)` with a string pattern: only the first occurrence is replaced. */
  function ReplaceFirst(s: string, pat: string, rep: string): (r: string)
    ensures (forall j :: !OccursAt(s, pat, j)) ==> r == s
  {
    match IndexOfFrom(s, pat, 0)
    case None => s
    case Some(i) => s[..i] + rep + s[i + |pat|..]
  }

  /** When the first occurrence of `pat` follows `a`, that occurrence and nothing else is replaced. */
  lemma ReplaceFirstAt(a: string, pat: string, b: string, rep: string)
    requires forall j: nat :: j < |a| ==> !OccursAt(a + pat + b, pat, j)
    ensures ReplaceFirst(a + pat + b, pat, rep) == a + rep + b
  {
    var s := a + pat + b;
    assert s[|a|..|a| + |pat|] == pat;
    assert OccursAt(s, pat, |a|);
    var r := IndexOfFrom(s, pat, 0);
    assert r == Some(|a|);
    assert s[..|a|] == a;
    assert s[|a| + |pat|..] == b;
  }
}
